=== FILE: README.md ===
# Voice sales agent: sessions, transcripts and webhook decisions

This project models the core of a telephony voice bot in Dafny. The bot answers phone
calls through a telephony provider's webhooks and transcribes the caller. It asks a hosted
language model for a short sales reply, synthesizes the reply to audio and plays it
back. It also keeps a transcript of every call. Every vendor call is an input to the
model, not something it performs:

- speech-to-text, the streamed completion, text-to-speech and call placement;
- the clock and whether each file write succeeded;
- the MD5 digest and a fault while running a coroutine.

What is modelled:

- **Transcript recorder** (`TranscriptLog`, from `ConversationLogger`). It keeps an
  in-memory buffer of the records of running calls. It mirrors each record to a durable
  store, the `logs/<sid>.json` files, modelled as a second map. Start overwrites the
  record. An interaction appends one entry, creating the record lazily. Ending a call
  stamps the record, writes it and evicts it from the buffer. Reads check the buffer
  first, then the store. `get_all_calls` is a stable newest-first sort cut to a limit.
- **Language-model agent** (`Groq`, from `GroqSalesAgent`). The history is append-only.
  Each request sends the fixed system preamble, then the history, with a hard limit of
  50 tokens. The reply is the concatenation of the non-empty streamed chunks. The module
  also covers the opening line (first 50 characters plus "...") and `reset`.
- **Sales agent and sessions** (`Sales`, from `SalesAgent` and `EnhancedConversation`).
  It covers the start-up credential check and the get-or-create session store keyed by
  call id. It also covers outbound call placement and the speech pipeline, which stops
  early on an empty transcript. The one-way `terminate` is modelled too, as is the
  greeting document.
- **Webhook handlers** (`Server`, from `twilio_server.py`). The state is the session
  store, the recorder and the audio cache directory, modelled as a map from path to
  content. Each handler returns a new state and a response. A response is a list of
  verbs (`Say`, `Play`, `Gather`), a JSON body with an HTTP status, or a served file.
- **Scenario** shows one inbound call from start to end through the handlers.

Behaviour of the code that a reader might not expect, which the model follows:

- One utterance on the user-input webhook logs two entries, not one: a
  `"Processing..."` placeholder, then the real reply.
- Nothing rejects a turn on a terminated session at the user-input webhook. A late
  user-input request simply creates a new session and a new "unknown" record. The audio
  webhook, by contrast, answers 404 "No active conversation found" for a removed session.
  The outbound-connect webhook creates a session but no record.
- Generation sees the whole history, not a window of the last N turns.
- The system preamble sent is the agent's own fixed text. The `prompt_preamble` of the
  configuration is ignored.

Two consequences of the code are stated as lemmas:

- The transcript page shows every logged entry as the agent speaking. The caller's words
  are never displayed (`Server.CallerWordsNeverShown`).
- A duplicated end-of-call callback replaces the finalised transcript with an empty
  "unknown" record (`TranscriptLog.RepeatedEndResetsStoredRecord`).

## Model

| member | source | states |
|---|---|---|
| `TranscriptLog.Save` | app/conversation_logger.py:62-69 | A successful write stores the full buffered record for the call. A failed write leaves the store as it was. Other calls are never touched. |
| `TranscriptLog.GetTranscript` | app/conversation_logger.py:71-86 | Returns the buffered record if there is one, else the stored record, else None. It returns None exactly when neither exists. |
| `TranscriptLog.LogCallStart` | app/conversation_logger.py:14-22 | Reading the call afterwards gives a fresh record with the given number and an empty transcript, whatever existed before. Other calls are unchanged. After a successful write the store equals memory for that call. It keeps buffered records unended and keeps memory mirrored. |
| `TranscriptLog.LogInteraction` | app/conversation_logger.py:24-42 | Appends exactly one `{timestamp, user, agent}` entry at the end; earlier entries stay as they were. An unknown call first gets a record numbered "unknown" with an empty transcript. Other calls are unchanged, and the store receives the full record. |
| `TranscriptLog.LogCallEnd` | app/conversation_logger.py:44-60 | Afterwards the call is absent from memory. The stored record has the given status and end time. Its transcript is the buffered one, or empty when the record had to be created. A failed write leaves the store unchanged. |
| `TranscriptLog.MirroredReadsStore` | app/conversation_logger.py:71-86 | When no write has failed, a read gives exactly what the store holds, so the buffer cannot be seen from outside. |
| `TranscriptLog.FailedEndLosesUnsavedRecord` | app/conversation_logger.py:54-69 | A record never saved before is gone after an ending whose write fails: it is neither buffered nor stored. |
| `TranscriptLog.RepeatedEndResetsStoredRecord` | app/conversation_logger.py:44-60 | Ending a call twice stores an "unknown" record with an empty transcript in place of the first final record. |
| `TranscriptLog.LateInteractionResetsStoredRecord` | app/conversation_logger.py:24-42 | An interaction after the call ended is not appended to the stored record. It stores a new "unknown" record holding only that entry. |
| `TranscriptLog.SortNewestFirstSpec` | app/conversation_logger.py:107-108 | The sort puts records in descending start time and keeps exactly the given records. It is stable: records with equal start times keep their order. |
| `TranscriptLog.GetAllCalls` | app/conversation_logger.py:88-111 | Returns at most `limit` records (Python slicing for a negative limit), newest first. Each is tagged with its id and carries what `get_transcript` gives for that id. They are drawn from the listed records, and none left out is newer than the last one returned. |
| `Groq.Respond` | app/groq_agent.py:30-61 | Appends the user message before the request. The request is the preamble followed by the whole history, with `max_tokens` 50. Yielded pieces are non-empty, and the reply is their concatenation, equal to the text of all chunks. A drained stream appends the assistant reply. A raising request leaves only the user message. No system message ever enters the history. |
| `Groq.SkippedChunksAddNothing` | app/groq_agent.py:53-58 | Skipping absent and empty chunks does not change the reply: it equals the concatenation of every chunk's text. |
| `Groq.DrainedTurnAppendsPair` | app/groq_agent.py:35-61 | A drained turn grows the history by exactly two messages, the user message then the assistant reply. Earlier history is untouched. |
| `Groq.GetInitialMessage` | app/groq_agent.py:63-68 | With an opening message configured, the result is its first 50 characters plus "...". It is at most 53 characters, ends with "..." and begins with a prefix of the text. Without one, it is the fixed default sentence. The result is never empty. |
| `Groq.Reset` | app/groq_agent.py:70-71 | Empties the history and keeps the model and the opening message. |
| `Sales.Missing` | app/agent.py:16-24 | Lists exactly the required names whose variable is absent or empty. |
| `Sales.NewSalesAgent` | app/agent.py:14-26 | Construction fails exactly when at least one of the five required variables is missing or empty. The error names the missing ones, joined by ", ". Otherwise the agent starts with no sessions. |
| `Sales.GetConversation` | app/agent.py:67-85 | A known call id returns its stored session and leaves the store unchanged. A new id registers an active session for that id with an empty history, configured with the agent's model and welcome message. There is always exactly one session per id. |
| `Sales.MakeOutboundCall` | app/agent.py:87-115 | The callbacks are `base + "/twilio/outbound-connect"` and `base + "/twilio/status"`, with "http://your-server-url" used when the base is empty. A session is registered under the id the provider returns. A raising placement registers nothing. |
| `Sales.GetResponse` | app/agent.py:204-209 | The text returned is the concatenation of the streamed chunks, which is the assistant message the agent recorded. A raising stream returns no text after recording the user message. |
| `Sales.ProcessSpeechInput` | app/agent.py:211-236 | An empty transcript gives `success=False`, the fixed apology and no audio. The session is untouched and the result does not depend on the generator or synthesizer. A non-empty transcript gives `success=True`, that transcript, the generated text and whatever audio synthesis returned, possibly None. |
| `Sales.Terminate` | app/agent.py:238-241 | The session becomes inactive with an empty history. A terminated session is a fixed point, so terminating twice equals terminating once. |
| `Sales.Respond` | app/agent.py:252-276 | Says the agent's opening line, or the welcome text when computing it raised. It then ends with a speech `Gather` to `/twilio/user-input` with timeout 5. |
| `Sales.NewCallGreeting` | app/agent.py:29-32 | A new call hears the configured welcome cut to "Hello! Welcome to Jivus AI. How can I assist you t...". |
| `Paths.Basename` | app/twilio_server.py:233 | The result has no '/' and is a suffix of the path, preceded by '/' or the start of the path. A path without '/' is returned whole. |
| `Paths.Join` | app/twilio_server.py:30 | An absolute second part replaces the directory. An empty directory, or one ending in '/', is followed directly by the name. Any other directory gets one '/' between it and the name. |
| `Paths.RStripSlash` | app/twilio_server.py:353 | Removes every trailing '/' and nothing else. |
| `Paths.BasenameOfJoin` | app/twilio_server.py:233-234 | Taking the basename of a name without '/' joined onto a directory gives the name back. |
| `Server.Start` | app/twilio_server.py:19-20 | The server fails to start exactly when a required credential is missing. Otherwise it starts with no sessions, an empty buffer and the existing store and audio files. |
| `Server.AudioFilename` | app/twilio_server.py:26-30 | For a call id without '/', the cache path lies directly in the audio directory. Its basename is `call_sid + "_" + H(call_sid + "_" + text) + ".mp3"`. |
| `Server.HandleInboundCall` | app/twilio_server.py:141-154 | Restarts the call's transcript with the caller's number and gets or creates its session. It answers with the session's greeting followed by a speech `Gather`. |
| `Server.DeliverReply` | app/twilio_server.py:177-217 | A cache hit plays `/twilio/audio/` plus the basename without synthesizing. On a miss, produced audio is written and played. With no audio, nothing is written and the reply is said twice. The verbs always end with the speech `Gather`. |
| `Server.HandleUserInput` | app/twilio_server.py:155-217 | Empty speech logs only the placeholder and says the "didn't hear anything" apology without generating. Otherwise it logs the placeholder, then the reply, and delivers the reply through the audio cache. A raising generation fails the request after the placeholder. Every document ends with the speech `Gather`. Only this call's session changes: it takes the history update of `get_response`. The placeholder and the reply are two separate store writes, each with its own success flag. Sessions stay valid. |
| `Server.PlayedAudioIsServed` | app/twilio_server.py:199-240 | For a call id without '/', the URL of an emitted `Play` names a file that `serve_audio` finds and returns. |
| `Server.ReplyWriteFailureLeavesPlaceholder` | app/twilio_server.py:164-175 | The placeholder may be saved while the reply's write fails. The store then holds the transcript ending in the placeholder, and the buffer already holds the reply after it. |
| `Server.RepeatedReplyHitsCache` | app/twilio_server.py:177-201 | Once a reply's audio is written, the same reply text for the same call plays the cached file. It does not synthesize again and leaves the cache unchanged. |
| `Server.ServeAudio` | app/twilio_server.py:228-243 | Only the basename of the requested name is used, so the resolved file lies directly in the audio directory. A missing file yields 404. |
| `Server.HandleAudioWebhook` | app/twilio_server.py:244-279 | A missing id or recording gives 400. An unknown call gives 404, and no session is created. A failed or raising pipeline gives 500 with nothing logged. Success logs exactly one interaction and returns the pipeline result. On 200 and 500 the call's session is the one `process_speech_input` left, and no other session changes. |
| `Server.MakeOutboundCall` | app/twilio_server.py:328-389 | Checks run in order: JSON body, both numbers present, both starting with '+', credentials set. The provider is asked only when all four pass, with webhooks under the host URL stripped of trailing '/'. A session and a transcript start only when the call is placed. |
| `Server.HandleOutboundConnect` | app/twilio_server.py:391-420 | Gets or creates the session, says the agent's opening line and ends with a speech `Gather`. When computing the greeting raises, it only says that connecting had an issue. |
| `Server.HandleStatusUpdate` | app/twilio_server.py:422-451 | "completed" or "failed" terminates and removes the session if present, and always ends the transcript. Other statuses change nothing. The answer is always an empty document. |
| `Server.ShowEntry` | app/twilio_server.py:119-125 | An entry is shown with role agent exactly when it has an agent key. Its content is the agent text, else the user text, else "". |
| `Server.ViewTranscript` | app/twilio_server.py:98-139 | Reads the stored record and gives 404 when there is none. It shows the call id, the start time and the caller's number. The status is the final one, or "in-progress" while running. There is one display item per entry, in order. |
| `Server.CallerWordsNeverShown` | app/twilio_server.py:119-125 | Every entry the recorder writes is shown as the agent speaking the agent text. |
| `Scenario.InboundCallLifecycle` | app/twilio_server.py:141-451 | After start, one utterance and "completed", the stored record holds the caller's number and two entries (placeholder, then reply), and the final status. The session is gone, so the next lookup creates a fresh one. |

## Left out

- `Groq.Respond`: the completion stream either delivers all its chunks or raises before
  the first one. An exception raised mid-iteration, after some pieces were yielded, is
  modelled as `Raised`. This gives the same history as the code, because the user message
  was already appended and no assistant message is. `get_response` and the handlers
  discard the partial pieces when the exception propagates.
- Vendor HTTP requests are not modelled. These are Deepgram transcription, ElevenLabs
  synthesis, the Groq completion and Twilio call placement. Each outcome is a parameter
  of the function that uses it.
- Base64 encoding and decoding are not modelled. Audio is kept as its base64 text.
- MD5 is a parameter that returns a hex digest. No injectivity is assumed.
- Model temperature, voice settings and codec configuration are left out. They are
  floats or vendor settings that no decision in the core depends on.
- `datetime.now()` is an abstract clock value. All clock reads within one webhook share
  one value. On the user-input webhook, the placeholder and the reply therefore carry the
  same timestamp, although the code reads the clock separately for each (before and after
  generation). ISO formatting is not modelled. No monotonicity is assumed.
- Call ids containing '/' are not covered by `Server.PlayedAudioIsServed`. The cache path
  then falls into a subdirectory. The model does not track whether directories exist, and
  the played URL, which keeps only the basename, would not resolve to that file.
- The dashboard, the `/status` endpoint, and the duration and timestamp formatting on
  the transcript page are left out: they are floating-point and HTML rendering.
- Flask routing, `asyncio.run` and TwiML XML rendering are left out. A coroutine fault
  is a boolean where the code catches it. Uncaught exceptions become an HTTP 500 page.
- JSON bodies whose phone fields are not strings, or that fail to parse, are left out.
  So is the `ImportError` branch of the outbound endpoint. These depend on the web
  framework and the installed libraries.
- In `get_all_calls`, `.json` file names are not modelled. The `replace('.json', '')`
  quirk on names containing ".json" is left out, and the listing is given as call ids.
  The code also tags buffered records with `call_sid` in place; the model returns
  tagged copies instead.
- A partially written file after a failed write is not modelled. A failed log write
  leaves the store unchanged, and a failed audio write leaves no file.
- Malformed transcript files, which give a 404 through `KeyError` or
  `JSONDecodeError`, are not modelled, and neither are the catch-alls that nothing in
  the model can reach.
- Concurrency is not modelled. The handlers share dictionaries without locking, and
  each handler is modelled as one atomic step.
- `SimpleDevice` and `main.py` are process plumbing. The start-up variable check in
  `main.py` is the same check `Server.Start` models.
- `TranscriptLog.GetAllCalls`: its ensures do not say that records with equal start
  times follow the listing order. That stability is proved for the sort it uses
  (`TranscriptLog.SortNewestFirstSpec`) but not restated for the method.

=== FILE: common.dfy ===
/** Shared vocabulary: optional values, success-or-error values, and the few Python
    sequence and string idioms (`s[:n]`, `startswith`, `endswith`, `sep.join`) that the
    modelled code relies on. */
module Common {

  /** A value that may be absent (Python's `None`). */
  datatype Option<+T> = None | Some(value: T)

  /** A computation that either produced a value or failed with an error. */
  datatype Result<+T, +E> = Success(value: T) | Failure(error: E)

  function Min(a: int, b: int): int { if a <= b then a else b }

  function Max(a: int, b: int): int { if a <= b then b else a }

  /** Python's `s[:n]` for a bound `n >= 0`: the first `n` items, or all of them. */
  function Prefix<T>(s: seq<T>, n: nat): (r: seq<T>)
    ensures r <= s
    ensures |r| == Min(|s|, n)
  {
    if |s| <= n then s else s[..n]
  }

  /** Python's `s[:limit]` for any integer bound; a negative bound drops that many
      items from the end. */
  function SliceTo<T>(s: seq<T>, limit: int): (r: seq<T>)
    ensures r <= s
    ensures 0 <= limit ==> |r| == Min(|s|, limit)
    ensures limit < 0 ==> |r| == Max(0, |s| + limit)
  {
    if 0 <= limit then Prefix(s, limit) else s[..Max(0, |s| + limit)]
  }

  /** Python's `s.startswith(p)`. */
  predicate StartsWith(s: string, p: string)
  {
    p <= s
  }

  /** Python's `s.endswith(p)`. */
  predicate EndsWith(s: string, p: string)
  {
    |p| <= |s| && s[|s| - |p|..] == p
  }

  /** Python's `sep.join(parts)`. */
  function JoinWith(parts: seq<string>, sep: string): string
  {
    if |parts| == 0 then ""
    else if |parts| == 1 then parts[0]
    else parts[0] + sep + JoinWith(parts[1..], sep)
  }
}

=== FILE: groq_agent.dfy ===
/** The language-model agent (`GroqSalesAgent`): an append-only history of user and
    assistant messages, a completion request made of a fixed system preamble followed by
    that history, a reply assembled from the streamed chunks, and an opening line. The
    completion API itself is a collaborator: its streamed output is an input here. */
module Groq {
  import opened Common

  datatype Role = System | User | Assistant

  datatype Message = Message(role: Role, content: string)

  /** The agent: the model it asks, the configured opening message text (if the
      configuration has one) and the conversation history. */
  datatype Agent = Agent(modelName: string, initialMessage: Option<string>, history: seq<Message>)

  /** What the agent asks the completion API for. */
  datatype CompletionRequest = CompletionRequest(model: string, messages: seq<Message>, maxTokens: nat, stream: bool)

  /** What the completion API delivered: the `delta.content` of each streamed chunk in
      order (None when a chunk carries none), or an exception from the request. */
  datatype Stream = Delivered(chunks: seq<Option<string>>) | Raised

  /** One `respond` call run to completion: the agent afterwards, the request sent, the
      pieces yielded to the consumer, and the full reply (None when the request raised). */
  datatype Turn = Turn(agent: Agent, request: CompletionRequest, yielded: seq<string>, reply: Option<string>)

  /** The hard ceiling on generated tokens per reply. */
  const MaxTokens: nat := 50

  /** How many characters of the configured opening message are kept. */
  const GreetingLength: nat := 50

  const Ellipsis := "..."

  const DefaultGreeting := "Hello! I'd like to understand how I can help you today."

  /** The system instruction the agent always sends; the `prompt_preamble` of its
      configuration is not used. */
  const Preamble := "Act as a concise and efficient sales representative. Your key goals are:\n"
    + "        1. Ask targeted, brief questions to understand customer needs\n"
    + "        2. Listen more than you speak\n"
    + "        3. Provide very brief, value-focused responses\n"
    + "        4. Guide the conversation with short, impactful statements\n"
    + "        5. Aim to speak no more than 15-20 words per response\n"
    + "        6. Encourage the customer to share more about their requirements"

  /** The contents of the chunks that carry text, in order; absent and empty contents are
      skipped (Python's truthiness test on `delta.content`). */
  function Contents(chunks: seq<Option<string>>): (r: seq<string>)
    ensures |r| <= |chunks|
    ensures forall i | 0 <= i < |r| :: r[i] != ""
  {
    if |chunks| == 0 then []
    else
      var rest := Contents(chunks[1..]);
      match chunks[0]
      case Some(text) => if text != "" then [text] + rest else rest
      case None => rest
  }

  /** The concatenation of a sequence of strings. */
  function Concat(parts: seq<string>): string
  {
    if |parts| == 0 then "" else parts[0] + Concat(parts[1..])
  }

  /** A chunk's text, an absent content counting as empty. */
  function TextOf(chunk: Option<string>): string
  {
    match chunk
    case Some(text) => text
    case None => ""
  }

  /** Reference reading of a stream: every chunk's text, in order. */
  function WholeText(chunks: seq<Option<string>>): string
  {
    if |chunks| == 0 then "" else TextOf(chunks[0]) + WholeText(chunks[1..])
  }

  /** Skipping absent and empty chunks never changes the reply text. */
  lemma {:induction false} SkippedChunksAddNothing(chunks: seq<Option<string>>)
    ensures Concat(Contents(chunks)) == WholeText(chunks)
  {
    if |chunks| > 0 {
      SkippedChunksAddNothing(chunks[1..]);
      match chunks[0]
      case Some(text) =>
        if text == "" {
          assert WholeText(chunks) == "" + WholeText(chunks[1..]);
        }
      case None =>
        assert WholeText(chunks) == "" + WholeText(chunks[1..]);
    }
  }

  /** The history holds only the two conversational roles: the system preamble is sent
      with every request but never stored. */
  ghost predicate Conversational(history: seq<Message>)
  {
    forall i | 0 <= i < |history| :: history[i].role != System
  }

  /** `respond`: appends the user message, asks for a completion of the preamble followed
      by the whole history, yields each non-empty chunk, and when the stream is drained
      appends the assistant message holding their concatenation. A raising request leaves
      the user message in the history and produces no reply. */
  function Respond(a: Agent, input: string, stream: Stream): (t: Turn)
    ensures t.request == CompletionRequest(a.modelName, [Message(System, Preamble)] + a.history + [Message(User, input)], MaxTokens, true)
    ensures t.agent.modelName == a.modelName && t.agent.initialMessage == a.initialMessage
    ensures |t.agent.history| > |a.history| && t.agent.history[..|a.history| + 1] == a.history + [Message(User, input)]
    ensures stream.Raised? ==> t.agent.history == a.history + [Message(User, input)] && t.reply.None? && t.yielded == []
    ensures stream.Delivered? ==>
      && t.reply == Some(WholeText(stream.chunks))
      && t.reply.value == Concat(t.yielded)
      && t.agent.history == a.history + [Message(User, input), Message(Assistant, t.reply.value)]
    ensures forall i | 0 <= i < |t.yielded| :: t.yielded[i] != ""
    ensures Conversational(a.history) ==> Conversational(t.agent.history)
  {
    var asked := a.history + [Message(User, input)];
    var request := CompletionRequest(a.modelName, [Message(System, Preamble)] + asked, MaxTokens, true);
    match stream
    case Raised => Turn(a.(history := asked), request, [], None)
    case Delivered(chunks) =>
      var yielded := Contents(chunks);
      var full := Concat(yielded);
      SkippedChunksAddNothing(chunks);
      assert asked + [Message(Assistant, full)] == a.history + [Message(User, input), Message(Assistant, full)];
      Turn(a.(history := asked + [Message(Assistant, full)]), request, yielded, Some(full))
  }

  /** `get_initial_message`: the first 50 characters of the configured opening message
      followed by "...", or the default sentence when none is configured. */
  function GetInitialMessage(a: Agent): (r: string)
    ensures a.initialMessage.None? ==> r == DefaultGreeting
    ensures a.initialMessage.Some? ==>
      && EndsWith(r, Ellipsis)
      && |r| == Min(|a.initialMessage.value|, GreetingLength) + |Ellipsis|
      && |r| <= GreetingLength + |Ellipsis|
      && r[..|r| - |Ellipsis|] <= a.initialMessage.value
    ensures r != ""
  {
    match a.initialMessage
    case Some(text) =>
      var kept := Prefix(text, GreetingLength);
      assert (kept + Ellipsis)[..|kept|] == kept;
      kept + Ellipsis
    case None => DefaultGreeting
  }

  /** `reset`: forgets the whole conversation history and nothing else. */
  function Reset(a: Agent): (r: Agent)
    ensures r.history == []
    ensures r.modelName == a.modelName && r.initialMessage == a.initialMessage
    ensures Conversational(r.history)
  {
    a.(history := [])
  }

  /** A fully drained `respond` grows the history by exactly one user message and then one
      assistant message carrying the reply; earlier history is never touched. */
  lemma DrainedTurnAppendsPair(a: Agent, input: string, chunks: seq<Option<string>>)
    ensures var t := Respond(a, input, Delivered(chunks));
      && |t.agent.history| == |a.history| + 2
      && t.agent.history[..|a.history|] == a.history
      && t.agent.history[|a.history|] == Message(User, input)
      && t.agent.history[|a.history| + 1] == Message(Assistant, t.reply.value)
  {
    var t := Respond(a, input, Delivered(chunks));
    assert t.agent.history == a.history + [Message(User, input), Message(Assistant, t.reply.value)];
  }
}

=== FILE: paths.dfy ===
/** The POSIX path operations the web server uses to name and serve cached audio:
    `os.path.basename`, two-argument `os.path.join`, and `rstrip('/')` on a URL. */
module Paths {
  import opened Common

  /** `os.path.basename(p)`: the text after the last '/' (all of `p` when it has none). */
  function Basename(p: string): (r: string)
    ensures '/' !in r
    ensures EndsWith(p, r)
    ensures |r| < |p| ==> p[|p| - |r| - 1] == '/'
    ensures '/' !in p ==> r == p
    decreases |p|
  {
    if |p| == 0 then ""
    else if p[|p| - 1] == '/' then ""
    else
      var rest := Basename(p[..|p| - 1]);
      assert p[..|p| - 1] + [p[|p| - 1]] == p;
      rest + [p[|p| - 1]]
  }

  /** `os.path.join(dir, name)` under POSIX rules: an absolute `name` replaces `dir`; an
      empty `dir`, or one already ending in '/', is followed directly by `name`; any other
      `dir` gets one '/' inserted before `name`. */
  function Join(dir: string, name: string): (r: string)
    ensures StartsWith(name, "/") ==> r == name
    ensures EndsWith(r, name)
    ensures !StartsWith(name, "/") && (dir == "" || EndsWith(dir, "/")) ==> r == dir + name
    ensures !StartsWith(name, "/") && dir != "" && !EndsWith(dir, "/") ==> r == dir + "/" + name
  {
    if StartsWith(name, "/") then name
    else if dir == "" || EndsWith(dir, "/") then dir + name
    else dir + "/" + name
  }

  /** `s.rstrip('/')`: drops every trailing slash and nothing else. */
  function RStripSlash(s: string): (r: string)
    ensures r <= s
    ensures r == "" || r[|r| - 1] != '/'
    ensures forall i | |r| <= i < |s| :: s[i] == '/'
    decreases |s|
  {
    if |s| > 0 && s[|s| - 1] == '/' then RStripSlash(s[..|s| - 1]) else s
  }

  /** The name after a separator is exactly what `basename` recovers, provided the name
      holds no separator of its own. */
  lemma {:induction false} BasenameAfterSeparator(front: string, name: string)
    requires front == "" || front[|front| - 1] == '/'
    requires '/' !in name
    ensures Basename(front + name) == name
    decreases |name|
  {
    if |name| == 0 {
      assert front + name == front;
    } else {
      var init := name[..|name| - 1];
      assert (front + name)[..|front + name| - 1] == front + init;
      assert '/' !in init by {
        forall c | c in init ensures c != '/' {
          assert c in name;
        }
      }
      BasenameAfterSeparator(front, init);
      assert init + [name[|name| - 1]] == name;
    }
  }

  /** Joining a relative, separator-free file name onto a directory and taking the
      basename gives the file name back. */
  lemma BasenameOfJoin(dir: string, name: string)
    requires '/' !in name
    ensures Basename(Join(dir, name)) == name
  {
    if name != "" {
      assert name[0] != '/';
      assert !StartsWith(name, "/");
    }
    if dir == "" || EndsWith(dir, "/") {
      BasenameAfterSeparator(dir, name);
    } else {
      assert dir + "/" + name == (dir + "/") + name;
      BasenameAfterSeparator(dir + "/", name);
    }
  }
}

=== FILE: sales_agent.dfy ===
/** The sales agent and its per-call conversation sessions (`SalesAgent`,
    `EnhancedConversation`): the start-up check of the required credentials, the session
    store keyed by call id, outbound call placement, and the speech pipeline of one
    session (transcription, reply generation, speech synthesis). The speech and telephony
    vendors are collaborators whose outcomes are inputs. */
module Sales {
  import opened Common
  import Groq
  import Twiml

  /** The process environment: variable name to value. */
  type Env = map<string, string>

  /** The credentials the agent refuses to start without, in the order it reports them. */
  const RequiredVars: seq<string> :=
    ["GROQ_API_KEY", "DEEPGRAM_API_KEY", "ELEVEN_LABS_API_KEY", "TWILIO_ACCOUNT_SID", "TWILIO_AUTH_TOKEN"]

  const MissingVarsMessage := "Missing required environment variables: "

  /** The model every session's agent asks. */
  const AgentModel := "llama3-70b-8192"

  /** The opening line configured for every session, also the spoken fallback greeting. */
  const WelcomeText := "Hello! Welcome to Jivus AI. How can I assist you today?"

  /** Used when no webhook base URL is given for an outbound call. */
  const DefaultWebhookBase := "http://your-server-url"

  const OutboundConnectPath := "/twilio/outbound-connect"

  const StatusPath := "/twilio/status"

  /** The reply of the pipeline when nothing was transcribed. */
  const CouldNotUnderstand := "I'm sorry, I couldn't understand that. Could you please try again?"

  /** `os.getenv(name)` is truthy: the variable is present and not empty. */
  predicate IsSet(env: Env, name: string)
  {
    name in env && env[name] != ""
  }

  /** `x` occurs in `names` at an earlier position than `y`. */
  ghost predicate Before(x: string, y: string, names: seq<string>)
  {
    exists p, q | 0 <= p < q < |names| :: x == names[p] && y == names[q]
  }

  /** Every element of `r` occurs in `names` before each element that follows it in `r`. */
  ghost predicate InOrderIn(r: seq<string>, names: seq<string>)
  {
    forall i, j | 0 <= i < j < |r| :: Before(r[i], r[j], names)
  }

  lemma InOrderInTail(r: seq<string>, names: seq<string>)
    requires |names| > 0 && InOrderIn(r, names[1..])
    ensures InOrderIn(r, names)
  {
    forall i, j | 0 <= i < j < |r| ensures Before(r[i], r[j], names) {
      var tail := names[1..];
      assert Before(r[i], r[j], tail);
      var p, q :| 0 <= p < q < |tail| && r[i] == tail[p] && r[j] == tail[q];
      assert r[i] == names[p + 1] && r[j] == names[q + 1];
    }
  }

  lemma InOrderInCons(r: seq<string>, names: seq<string>)
    requires |names| > 0 && InOrderIn(r, names)
    requires forall v | v in r :: v in names[1..]
    ensures InOrderIn([names[0]] + r, names)
  {
    var c := [names[0]] + r;
    forall i, j | 0 <= i < j < |c| ensures Before(c[i], c[j], names) {
      if i == 0 {
        assert c[j] == r[j - 1] && c[j] in names[1..];
        var q :| 0 <= q < |names[1..]| && names[1..][q] == c[j];
        assert names[q + 1] == c[j];
      } else {
        assert c[i] == r[i - 1] && c[j] == r[j - 1];
      }
    }
  }

  /** The names among `names` that are not set, in their order: the list comprehension
      whose join makes the start-up error text. */
  function Missing(env: Env, names: seq<string>): (r: seq<string>)
    ensures forall v :: v in r <==> v in names && !IsSet(env, v)
    ensures |r| <= |names|
    ensures InOrderIn(r, names)
  {
    if |names| == 0 then []
    else
      var rest := Missing(env, names[1..]);
      InOrderInTail(rest, names);
      if IsSet(env, names[0]) then rest
      else
        InOrderInCons(rest, names);
        [names[0]] + rest
  }

  /** One call's conversation: its id, whether it is still active, and its agent. */
  datatype Session = Session(callSid: string, isActive: bool, agent: Groq.Agent)

  /** The sales agent: the sessions of the calls it knows about, keyed by call id. */
  datatype SalesAgent = SalesAgent(sessions: map<string, Session>)

  /** Every registered session belongs to the id it is registered under, is active, and
      keeps only user and assistant messages in its history. */
  ghost predicate SessionsValid(sa: SalesAgent)
  {
    forall sid | sid in sa.sessions ::
      && sa.sessions[sid].callSid == sid
      && sa.sessions[sid].isActive
      && Groq.Conversational(sa.sessions[sid].agent.history)
  }

  /** `SalesAgent()`: refuses to start, naming every missing variable, exactly when at
      least one required variable is absent or empty; otherwise starts with no sessions. */
  function NewSalesAgent(env: Env): (r: Result<SalesAgent, string>)
    ensures r.Failure? <==> exists v :: v in RequiredVars && !IsSet(env, v)
    ensures r.Failure? ==> r.error == MissingVarsMessage + JoinWith(Missing(env, RequiredVars), ", ")
    ensures r.Success? ==> r.value.sessions == map[] && SessionsValid(r.value)
  {
    var missing := Missing(env, RequiredVars);
    if |missing| > 0 then
      assert missing[0] in missing;
      Failure(MissingVarsMessage + JoinWith(missing, ", "))
    else
      Success(SalesAgent(map[]))
  }

  /** The session a newly seen call gets: active, empty history, the configured agent. */
  function NewSession(sid: string): Session
  {
    Session(sid, true, Groq.Agent(AgentModel, Some(WelcomeText), []))
  }

  datatype Lookup = Lookup(agent: SalesAgent, session: Session)

  /** `get_conversation`: the session registered for `sid`, or a new one registered on the
      spot. At most one session exists per id: an existing one is returned unchanged. */
  function GetConversation(sa: SalesAgent, sid: string): (r: Lookup)
    ensures sid in sa.sessions ==> r.agent == sa && r.session == sa.sessions[sid]
    ensures sid !in sa.sessions ==>
      && r.session.callSid == sid && r.session.isActive && r.session.agent.history == []
      && r.agent.sessions == sa.sessions[sid := r.session]
      && r.session == NewSession(sid)
    ensures sid in r.agent.sessions && r.agent.sessions[sid] == r.session
    ensures r.agent.sessions.Keys == sa.sessions.Keys + {sid}
    ensures SessionsValid(sa) ==> SessionsValid(r.agent) && r.session.callSid == sid && r.session.isActive
  {
    if sid in sa.sessions then Lookup(sa, sa.sessions[sid])
    else
      var s := NewSession(sid);
      Lookup(sa.(sessions := sa.sessions[sid := s]), s)
  }

  /** Puts a session (changed by a turn) back under its id. */
  function Store(sa: SalesAgent, sid: string, s: Session): SalesAgent
  {
    sa.(sessions := sa.sessions[sid := s])
  }

  /** What is asked of the telephony provider to place a call. */
  datatype CallRequest = CallRequest(to: string, from: string, url: string, statusCallback: string)

  datatype Outbound = Outbound(agent: SalesAgent, request: CallRequest, session: Option<Session>)

  /** `make_outbound_call`: asks the provider to call `to` from `from`, with both webhooks
      under `base` (or the placeholder URL when `base` is empty), and registers a session
      under the id the provider returns. `placed` is the provider's answer: the new call's
      id, or None when placing the call raised (which the caller then reports). */
  function MakeOutboundCall(sa: SalesAgent, to: string, from: string, base: string, placed: Option<string>): (r: Outbound)
    ensures var b := if base == "" then DefaultWebhookBase else base;
      r.request == CallRequest(to, from, b + OutboundConnectPath, b + StatusPath)
    ensures placed.None? ==> r.agent == sa && r.session.None?
    ensures placed.Some? ==>
      && r.session.Some?
      && r.agent == GetConversation(sa, placed.value).agent
      && r.session.value == r.agent.sessions[placed.value]
    ensures SessionsValid(sa) ==> SessionsValid(r.agent)
    ensures SessionsValid(sa) && placed.Some? ==> r.session.value.callSid == placed.value
  {
    var webhookBase := if base == "" then DefaultWebhookBase else base;
    var request := CallRequest(to, from, webhookBase + OutboundConnectPath, webhookBase + StatusPath);
    match placed
    case None => Outbound(sa, request, None)
    case Some(sid) =>
      var found := GetConversation(sa, sid);
      Outbound(found.agent, request, Some(found.session))
  }

  datatype Reply = Reply(session: Session, text: Option<string>)

  /** `get_response`: drains the agent's reply stream and returns the concatenation of
      everything yielded, which is exactly the assistant message the agent recorded. A
      raising request propagates (no text) after the user message was recorded. */
  function GetResponse(s: Session, input: string, stream: Groq.Stream): (r: Reply)
    ensures r.session == s.(agent := Groq.Respond(s.agent, input, stream).agent)
    ensures r.text.Some? <==> stream.Delivered?
    ensures stream.Delivered? ==>
      && r.text.value == Groq.WholeText(stream.chunks)
      && r.session.agent.history == s.agent.history + [Groq.Message(Groq.User, input), Groq.Message(Groq.Assistant, r.text.value)]
    ensures stream.Raised? ==> r.session.agent.history == s.agent.history + [Groq.Message(Groq.User, input)]
  {
    var t := Groq.Respond(s.agent, input, stream);
    Reply(s.(agent := t.agent), if t.reply.Some? then Some(Groq.Concat(t.yielded)) else None)
  }

  /** The outcome `process_speech_input` reports. */
  datatype SpeechResult = SpeechResult(success: bool, transcript: string, responseText: string, responseAudio: Option<string>)

  /** The session after the pipeline, and its result (None when generation raised). */
  datatype Processed = Processed(session: Session, result: Option<SpeechResult>)

  /** `process_speech_input`: `heard` is what transcription produced (transcription
      failures already read as ""), `stream` what generation delivered and `audio` what
      synthesis returned (base64 text, or None when it failed). An empty transcript
      short-circuits before generation: the fixed apology, no audio, the session
      untouched, whatever the other collaborators would have done. */
  function ProcessSpeechInput(s: Session, heard: string, stream: Groq.Stream, audio: Option<string>): (r: Processed)
    ensures heard == "" ==> r == Processed(s, Some(SpeechResult(false, "", CouldNotUnderstand, None)))
    ensures heard != "" ==> r.session == GetResponse(s, heard, stream).session
    ensures heard != "" && stream.Delivered? ==>
      r.result == Some(SpeechResult(true, heard, Groq.WholeText(stream.chunks), audio))
    ensures heard != "" && stream.Raised? ==> r.result.None?
  {
    if heard == "" then Processed(s, Some(SpeechResult(false, "", CouldNotUnderstand, None)))
    else
      var reply := GetResponse(s, heard, stream);
      match reply.text
      case None => Processed(reply.session, None)
      case Some(text) => Processed(reply.session, Some(SpeechResult(true, heard, text, audio)))
  }

  /** `terminate`: the session becomes inactive and its agent forgets the conversation.
      A terminated session is a fixed point, so terminating twice equals terminating once. */
  function Terminate(s: Session): (r: Session)
    ensures !r.isActive && r.agent.history == []
    ensures r.callSid == s.callSid
    ensures r.agent.modelName == s.agent.modelName && r.agent.initialMessage == s.agent.initialMessage
    ensures !s.isActive && s.agent.history == [] ==> r == s
  {
    s.(isActive := false, agent := Groq.Reset(s.agent))
  }

  /** `respond` of a session: says the agent's opening line, or the welcome text when
      computing it raised (`loopFault`) or gave nothing, then listens for speech. */
  function Respond(s: Session, loopFault: bool): (r: seq<Twiml.Verb>)
    ensures |r| == 2 && r[1] == Twiml.SpeechGather
    ensures loopFault ==> r[0] == Twiml.Say(WelcomeText)
    ensures !loopFault ==> r[0] == Twiml.Say(Groq.GetInitialMessage(s.agent))
  {
    var greeting := if loopFault then "" else Groq.GetInitialMessage(s.agent);
    [Twiml.Say(if greeting != "" then greeting else WelcomeText), Twiml.SpeechGather]
  }

  /** A caller reaching a new session hears the configured welcome cut to its first 50
      characters, followed by "...". */
  lemma NewCallGreeting(sid: string)
    ensures Respond(NewSession(sid), false)[0] == Twiml.Say("Hello! Welcome to Jivus AI. How can I assist you t...")
  {
    assert |WelcomeText| == 55;
    assert WelcomeText[..50] == "Hello! Welcome to Jivus AI. How can I assist you t";
  }
}

=== FILE: scenario.dfy ===
/** One call from start to finish, through the handlers, with every store write
    succeeding: the caller's number is recorded, an utterance is logged as a placeholder
    entry followed by the reply entry, and the end of the call finalises the stored
    record and forgets the session. */
module Scenario {
  import opened Common
  import Groq
  import Sales
  import Log = TranscriptLog
  import Server

  const CallId := "CA1"

  const Caller := "+15551234567"

  const Utterance := "I need a demo"

  lemma {:induction false} InboundCallLifecycle(env: Sales.Env, store: map<Log.Sid, Log.Record>, audio: map<string, string>,
                                                md5: string -> Server.Digest, chunks: seq<Option<string>>,
                                                synthesis: Server.Synthesis, t0: Log.Time, t1: Log.Time, t2: Log.Time)
    requires Server.Start(env, store, audio).Success?
    ensures
      var st := Server.Start(env, store, audio).value;
      var started := Server.HandleInboundCall(st, CallId, Caller, t0, true, false).server;
      var replied := Server.HandleUserInput(started, CallId, Utterance, t1, true, true, md5, Groq.Delivered(chunks), synthesis).server;
      var ended := Server.HandleStatusUpdate(replied, Server.CompletedStatus, CallId, t2, true).server;
      var reply := Groq.WholeText(chunks);
      && started.logger.store[CallId] == Log.Record(t0, Caller, [], None)
      && replied.logger.store[CallId].transcript ==
           [Log.Entry(t1, Utterance, Server.Placeholder), Log.Entry(t1, Utterance, reply)]
      && replied.agent.sessions[CallId].agent.history ==
           [Groq.Message(Groq.User, Utterance), Groq.Message(Groq.Assistant, reply)]
      && ended.logger.store[CallId] ==
           Log.Record(t0, Caller, [Log.Entry(t1, Utterance, Server.Placeholder), Log.Entry(t1, Utterance, reply)],
                      Some(Log.Ending(t2, Server.CompletedStatus)))
      && CallId !in ended.logger.memory
      && CallId !in ended.agent.sessions
      && Sales.GetConversation(ended.agent, CallId).session == Sales.NewSession(CallId)
  {
    var st := Server.Start(env, store, audio).value;
    var started := Server.HandleInboundCall(st, CallId, Caller, t0, true, false).server;
    assert started.logger.memory[CallId] == Log.Record(t0, Caller, [], None);
    assert CallId !in st.agent.sessions;
    var replied := Server.HandleUserInput(started, CallId, Utterance, t1, true, true, md5, Groq.Delivered(chunks), synthesis).server;
    var reply := Groq.WholeText(chunks);
    var placeholderOnly := Log.LogInteraction(started.logger, CallId, Utterance, Server.Placeholder, t1, true);
    assert placeholderOnly.memory[CallId].transcript == [Log.Entry(t1, Utterance, Server.Placeholder)];
    assert replied.logger.memory[CallId].transcript ==
      [Log.Entry(t1, Utterance, Server.Placeholder), Log.Entry(t1, Utterance, reply)];
    assert replied.logger.memory[CallId] ==
      Log.Record(t0, Caller, [Log.Entry(t1, Utterance, Server.Placeholder), Log.Entry(t1, Utterance, reply)], None);
  }
}

=== FILE: server.dfy ===
/** The webhook handlers of the web server (`twilio_server.py`). Each handler is a pure
    function from the server state, the request fields and the outcomes of the
    collaborators it calls (clock, store writes, language model, speech synthesis, call
    placement, the MD5 digest) to the new state and the response: a list of telephony
    verbs, a JSON body with an HTTP status, or an audio file. A request field that is
    absent arrives as "" (the handlers read them with a "" default). */
module Server {
  import opened Common
  import opened Paths
  import Twiml
  import Groq
  import Sales
  import Log = TranscriptLog

  /** An MD5 hex digest (`hexdigest()`): lower-case hexadecimal digits only. The digest
      function itself is a parameter of the handlers that need it. */
  type Digest = d: string | forall i | 0 <= i < |d| :: d[i] in "0123456789abcdef" witness ""

  /** The process state: the sales agent's sessions, the transcript recorder, and the
      audio cache directory as a map from file path to content (base64 text of the bytes
      written; decoding is not modelled). */
  datatype Server = Server(agent: Sales.SalesAgent, logger: Log.Logger, audio: map<string, string>)

  /** The audio cache directory, `<project root>/audio_responses`. Only its shape matters:
      absolute, without a trailing separator. */
  const AudioDir := "/srv/voice-agent/audio_responses"

  /** The URL prefix under which cached audio is served. */
  const AudioRoute := "/twilio/audio/"

  const Placeholder := "Processing..."

  const DidNotHear := "I'm sorry, I didn't hear anything. Could you please try again?"

  const OutboundFallbackGreeting := "Hello! This is Jivus AI. How can I assist you today?"

  const ConnectIssue := "Hello! There was an issue connecting the call."

  const MissingParameters := "Missing required parameters"

  const NoActiveConversation := "No active conversation found"

  const SpeechFailed := "Failed to process speech"

  const NotJson := "Request must be JSON"

  const NumbersRequired := "Phone numbers are required"

  const NotE164 := "Phone numbers must be in E.164 format (e.g., +1234567890)"

  const NoCredentials := "Twilio credentials are not configured"

  const CallFailed := "Failed to initiate call"

  const CompletedStatus := "completed"

  const FailedStatus := "failed"

  /** The state every handler preserves: sessions are keyed by their own id and active,
      and the recorder buffers only calls that have not ended. */
  ghost predicate Valid(st: Server)
  {
    Sales.SessionsValid(st.agent) && Log.Inv(st.logger)
  }

  /** Module start-up: the sales agent (which may refuse to start) and a recorder over
      the transcripts and audio files already on disk. */
  function Start(env: Sales.Env, store: map<Log.Sid, Log.Record>, audio: map<string, string>): (r: Result<Server, string>)
    ensures r.Failure? <==> exists v :: v in Sales.RequiredVars && !Sales.IsSet(env, v)
    ensures r.Success? ==>
      && Valid(r.value)
      && r.value.agent.sessions == map[]
      && r.value.logger == Log.Logger(map[], store)
      && r.value.audio == audio
  {
    match Sales.NewSalesAgent(env)
    case Failure(e) => Failure(e)
    case Success(sa) => Success(Server(sa, Log.NewLogger(store), audio))
  }

  /** The file name the reply audio of a call is cached under. */
  function AudioName(sid: string, text: string, md5: string -> Digest): string
  {
    sid + "_" + md5(sid + "_" + text) + ".mp3"
  }

  /** A call id without a separator gives a cache file name without one. */
  lemma AudioNameIsPlain(sid: string, text: string, md5: string -> Digest)
    requires '/' !in sid
    ensures '/' !in AudioName(sid, text, md5)
    ensures !StartsWith(AudioName(sid, text, md5), "/")
  {
    var digest := md5(sid + "_" + text);
    var name := AudioName(sid, text, md5);
    assert '/' !in digest by {
      forall i | 0 <= i < |digest| ensures digest[i] != '/' {
        assert digest[i] in "0123456789abcdef";
      }
    }
    if |sid| > 0 {
      assert name[0] == sid[0];
    } else {
      assert name[0] == '_';
    }
  }

  /** `generate_audio_filename`: the cache path of a reply, fixed by the call id and the
      reply text (through the MD5 of `call_sid + "_" + text`). For a call id without a
      separator the path lies directly in the cache directory and its basename is
      `<call id>_<digest>.mp3`. */
  function AudioFilename(sid: string, text: string, md5: string -> Digest): (r: string)
    ensures '/' !in sid ==>
      && r == AudioDir + "/" + AudioName(sid, text, md5)
      && Basename(r) == AudioName(sid, text, md5)
  {
    var name := AudioName(sid, text, md5);
    if '/' in sid then Join(AudioDir, name)
    else
      AudioNameIsPlain(sid, text, md5);
      BasenameOfJoin(AudioDir, name);
      Join(AudioDir, name)
  }

  /** A response made of telephony verbs. */
  datatype Answer = Answer(server: Server, verbs: seq<Twiml.Verb>)

  /** `handle_inbound_call`: (re)starts the call's transcript with the caller's number,
      gets or creates its session, and answers with the session's greeting. */
  function HandleInboundCall(st: Server, sid: string, from: string, now: Log.Time, saved: bool, loopFault: bool): (r: Answer)
    ensures r.server.logger == Log.LogCallStart(st.logger, sid, from, now, saved)
    ensures Log.GetTranscript(r.server.logger, sid) == Some(Log.Started(now, from))
    ensures r.server.agent == Sales.GetConversation(st.agent, sid).agent
    ensures sid in r.server.agent.sessions
    ensures r.verbs == Sales.Respond(r.server.agent.sessions[sid], loopFault)
    ensures |r.verbs| == 2 && r.verbs[1] == Twiml.SpeechGather
    ensures r.server.audio == st.audio
    ensures Valid(st) ==> Valid(r.server)
  {
    var logged := Log.LogCallStart(st.logger, sid, from, now, saved);
    var found := Sales.GetConversation(st.agent, sid);
    Answer(Server(found.agent, logged, st.audio), Sales.Respond(found.session, loopFault))
  }

  /** A telephony document, or the HTTP 500 the web framework sends when a handler
      raises. */
  datatype Page = Document(verbs: seq<Twiml.Verb>) | InternalError

  datatype Handled = Handled(server: Server, page: Page)

  /** What happened in the synthesis `try` block: the synthesizer's answer (base64 audio
      text, or None when it failed), or an exception inside the block (running the
      coroutine, decoding, or writing the file), in which case nothing is written. */
  datatype Synthesis = Returned(audio: Option<string>) | SynthesisRaised

  /** The block produced audio worth writing: a non-empty base64 text. */
  predicate HasAudio(s: Synthesis)
  {
    s.Returned? && s.audio.Some? && s.audio.value != ""
  }

  /** The audio directory after a reply, and the verbs that deliver it. */
  datatype Delivery = Delivery(audio: map<string, string>, verbs: seq<Twiml.Verb>)

  /** The delivery part of `handle_user_input` for a reply `text` cached at `path`: a
      cached file is played without synthesizing; on a miss, audio from the synthesizer
      is written and played; when none could be produced nothing is written and the
      reply is said twice (once in the failure branch, once as the final fallback).
      Either way the verbs end by listening for more speech. */
  function DeliverReply(audio: map<string, string>, path: string, text: string, synthesis: Synthesis): (r: Delivery)
    ensures var play := Twiml.Play(AudioRoute + Basename(path));
      && (path in audio ==> r == Delivery(audio, [play, Twiml.SpeechGather]))
      && (path !in audio && HasAudio(synthesis) ==>
            r == Delivery(audio[path := synthesis.audio.value], [play, Twiml.SpeechGather]))
      && (path !in audio && !HasAudio(synthesis) ==>
            r == Delivery(audio, [Twiml.Say(text), Twiml.Say(text), Twiml.SpeechGather]))
    ensures path in r.audio <==> r.verbs[|r.verbs| - 2].Play?
    ensures r.verbs[|r.verbs| - 1] == Twiml.SpeechGather
  {
    var cached := path in audio;
    var audio' := if !cached && HasAudio(synthesis) then audio[path := synthesis.audio.value] else audio;
    var fallback := if !cached && !HasAudio(synthesis) then [Twiml.Say(text)] else [];
    var final := if path in audio' then Twiml.Play(AudioRoute + Basename(path)) else Twiml.Say(text);
    Delivery(audio', fallback + [final, Twiml.SpeechGather])
  }

  /** `handle_user_input`: gets or creates the session, logs a "Processing..." placeholder,
      and then, for non-empty speech, generates the reply, logs it, and plays the cached
      audio for (call id, reply), synthesizing and writing it first on a cache miss, or
      falls back to provider speech (said twice, once in the failure branch and once at
      the end) when no audio could be produced. Empty speech gets an apology and no
      generation. Every document ends by listening for more speech. A raising reply
      generation is not caught: the request fails after the placeholder was logged. The
      placeholder and the reply are two separate store writes, each of which may fail on
      its own (`savedPlaceholder`, `savedReply`). */
  function HandleUserInput(st: Server, sid: string, speech: string, now: Log.Time,
                           savedPlaceholder: bool, savedReply: bool,
                           md5: string -> Digest, stream: Groq.Stream, synthesis: Synthesis): (r: Handled)
    ensures r.page.Document? ==> |r.page.verbs| > 0 && r.page.verbs[|r.page.verbs| - 1] == Twiml.SpeechGather
    ensures r.page.InternalError? <==> speech != "" && stream.Raised?
    ensures r.server.agent.sessions.Keys == st.agent.sessions.Keys + {sid}
    ensures speech == "" ==>
      && r.page == Document([Twiml.Say(DidNotHear), Twiml.SpeechGather])
      && r.server.logger == Log.LogInteraction(st.logger, sid, "", Placeholder, now, savedPlaceholder)
      && r.server.agent == Sales.GetConversation(st.agent, sid).agent
      && r.server.audio == st.audio
    ensures speech != "" ==>
      var found := Sales.GetConversation(st.agent, sid);
      r.server.agent == Sales.Store(found.agent, sid, Sales.GetResponse(found.session, speech, stream).session)
    ensures speech != "" ==>
      var before := Sales.GetConversation(st.agent, sid).session;
      r.server.agent.sessions[sid] == Sales.GetResponse(before, speech, stream).session
    ensures speech != "" && stream.Raised? ==>
      && r.server.logger == Log.LogInteraction(st.logger, sid, speech, Placeholder, now, savedPlaceholder)
      && r.server.audio == st.audio
    ensures speech != "" && stream.Delivered? ==>
      var text := Groq.WholeText(stream.chunks);
      var delivered := DeliverReply(st.audio, AudioFilename(sid, text, md5), text, synthesis);
      && r.server.logger ==
           Log.LogInteraction(Log.LogInteraction(st.logger, sid, speech, Placeholder, now, savedPlaceholder),
                              sid, speech, text, now, savedReply)
      && r.server.audio == delivered.audio
      && r.page == Document(delivered.verbs)
    ensures Valid(st) ==> Valid(r.server)
  {
    var found := Sales.GetConversation(st.agent, sid);
    var logged := Log.LogInteraction(st.logger, sid, speech, Placeholder, now, savedPlaceholder);
    if speech == "" then
      Handled(Server(found.agent, logged, st.audio), Document([Twiml.Say(DidNotHear), Twiml.SpeechGather]))
    else AnswerSpeech(found, logged, st.audio, sid, speech, now, savedReply, md5, stream, synthesis)
  }

  /** The part of `handle_user_input` for non-empty speech, once the session `found` is
      looked up and the placeholder is logged: generate the reply into the session, then
      log and deliver it. A raising generation leaves only the updated session. */
  function AnswerSpeech(found: Sales.Lookup, logged: Log.Logger, audio: map<string, string>, sid: string, speech: string,
                        now: Log.Time, savedReply: bool, md5: string -> Digest, stream: Groq.Stream,
                        synthesis: Synthesis): (r: Handled)
    ensures r.server.agent == Sales.Store(found.agent, sid, Sales.GetResponse(found.session, speech, stream).session)
    ensures r.page.InternalError? <==> stream.Raised?
    ensures stream.Raised? ==> r.server.logger == logged && r.server.audio == audio
    ensures stream.Delivered? ==>
      var text := Groq.WholeText(stream.chunks);
      var delivered := DeliverReply(audio, AudioFilename(sid, text, md5), text, synthesis);
      && r.server.logger == Log.LogInteraction(logged, sid, speech, text, now, savedReply)
      && r.server.audio == delivered.audio
      && r.page == Document(delivered.verbs)
  {
    var reply := Sales.GetResponse(found.session, speech, stream);
    var agent := Sales.Store(found.agent, sid, reply.session);
    match reply.text
    case None => Handled(Server(agent, logged, audio), InternalError)
    case Some(text) =>
      var delivered := DeliverReply(audio, AudioFilename(sid, text, md5), text, synthesis);
      Handled(Server(agent, Log.LogInteraction(logged, sid, speech, text, now, savedReply), delivered.audio),
              Document(delivered.verbs))
  }

  /** The outcome of serving an audio file. */
  datatype AudioReply = Found(path: string, data: string) | NotFound

  /** `serve_audio`: keeps only the basename of the requested name, so the resolved path
      lies directly inside the cache directory, and answers 404 when no such file exists. */
  function ServeAudio(audio: map<string, string>, filename: string): (r: AudioReply)
    ensures var path := AudioDir + "/" + Basename(filename);
      && (r.NotFound? <==> path !in audio)
      && (r.Found? ==> r.path == path && r.data == audio[path])
    ensures r.Found? ==> StartsWith(r.path, AudioDir + "/") && '/' !in r.path[|AudioDir| + 1..]
  {
    var safe := Basename(filename);
    var path := Join(AudioDir, safe);
    assert safe != "" ==> safe[0] != '/';
    assert path == AudioDir + "/" + safe;
    assert path[|AudioDir| + 1..] == safe;
    if path in audio then Found(path, audio[path]) else NotFound
  }

  /** The JSON bodies of the audio webhook. `WebhookRaised` is the body the handler's
      catch-all produces from an exception (its message is not modelled). */
  datatype WebhookBody =
    | WebhookError(error: string)
    | WebhookRaised
    | Processed(transcript: string, responseText: string, responseAudio: Option<string>)

  datatype WebhookAnswer = WebhookAnswer(server: Server, code: int, body: WebhookBody)

  /** `handle_audio_webhook`: 400 without a call id or recording, 404 for a call with no
      session (none is created), 500 when the pipeline fails or raises (nothing logged),
      and on success exactly one logged interaction and the pipeline's result. `heard`,
      `stream` and `synthesized` are what transcription, generation and synthesis
      produced for this recording. */
  function HandleAudioWebhook(st: Server, sid: string, recording: string, heard: string, stream: Groq.Stream,
                              synthesized: Option<string>, now: Log.Time, saved: bool): (r: WebhookAnswer)
    ensures recording == "" || sid == "" ==> r == WebhookAnswer(st, 400, WebhookError(MissingParameters))
    ensures recording != "" && sid != "" && sid !in st.agent.sessions ==>
      r == WebhookAnswer(st, 404, WebhookError(NoActiveConversation))
    ensures r.code == 200 <==> recording != "" && sid != "" && sid in st.agent.sessions && heard != "" && stream.Delivered?
    ensures r.code == 200 ==>
      && r.body == Processed(heard, Groq.WholeText(stream.chunks), synthesized)
      && r.server.logger == Log.LogInteraction(st.logger, sid, heard, Groq.WholeText(stream.chunks), now, saved)
    ensures recording != "" && sid != "" && sid in st.agent.sessions ==>
      r.server.agent == Sales.Store(st.agent, sid, Sales.ProcessSpeechInput(st.agent.sessions[sid], heard, stream, synthesized).session)
    ensures recording != "" && sid != "" && sid in st.agent.sessions && !(heard != "" && stream.Delivered?) ==>
      r.code == 500 && r.body == (if heard == "" then WebhookError(SpeechFailed) else WebhookRaised)
    ensures r.code != 200 ==> r.server.logger == st.logger
    ensures r.code in {200, 400, 404, 500}
    ensures r.server.agent.sessions.Keys == st.agent.sessions.Keys
    ensures r.server.audio == st.audio
    ensures Valid(st) ==> Valid(r.server)
  {
    if recording == "" || sid == "" then WebhookAnswer(st, 400, WebhookError(MissingParameters))
    else if sid !in st.agent.sessions then WebhookAnswer(st, 404, WebhookError(NoActiveConversation))
    else
      var p := Sales.ProcessSpeechInput(st.agent.sessions[sid], heard, stream, synthesized);
      var agent := Sales.Store(st.agent, sid, p.session);
      match p.result
      case None => WebhookAnswer(st.(agent := agent), 500, WebhookRaised)
      case Some(res) =>
        if !res.success then WebhookAnswer(st.(agent := agent), 500, WebhookError(SpeechFailed))
        else
          var logged := Log.LogInteraction(st.logger, sid, res.transcript, res.responseText, now, saved);
          WebhookAnswer(Server(agent, logged, st.audio), 200, Processed(res.transcript, res.responseText, res.responseAudio))
  }

  /** The JSON bodies of the outbound-call endpoint. */
  datatype OutboundBody = Rejected(error: string) | Placed(callSid: string, to: string, from: string)

  /** The answer, and the request made of the telephony provider if one was made. */
  datatype OutboundAnswer = OutboundAnswer(server: Server, code: int, body: OutboundBody, request: Option<Sales.CallRequest>)

  /** A JSON field that is present, not null and not empty. */
  predicate Present(field: Option<string>)
  {
    field.Some? && field.value != ""
  }

  /** Both numbers carry the leading '+' of E.164 (nothing else of the format is checked). */
  predicate LooksE164(to: string, from: string)
  {
    StartsWith(to, "+") && StartsWith(from, "+")
  }

  /** `make_outbound_call` (the endpoint): checks, in this order, that the body is JSON,
      that both numbers are given, that both start with '+', and that the provider
      credentials are set; only then asks the provider to place the call, with webhooks
      under the request's host URL (trailing slashes stripped). `placed` is the provider's
      answer: the new call id, or None when placing raised. A placed call gets a session
      and a started transcript for the number called. */
  function MakeOutboundCall(st: Server, isJson: bool, to: Option<string>, from: Option<string>, env: Sales.Env,
                            hostUrl: string, placed: Option<string>, now: Log.Time, saved: bool): (r: OutboundAnswer)
    ensures !isJson ==> r == OutboundAnswer(st, 400, Rejected(NotJson), None)
    ensures isJson && !(Present(to) && Present(from)) ==> r == OutboundAnswer(st, 400, Rejected(NumbersRequired), None)
    ensures isJson && Present(to) && Present(from) && !LooksE164(to.value, from.value) ==>
      r == OutboundAnswer(st, 400, Rejected(NotE164), None)
    ensures isJson && Present(to) && Present(from) && LooksE164(to.value, from.value)
            && !(Sales.IsSet(env, "TWILIO_ACCOUNT_SID") && Sales.IsSet(env, "TWILIO_AUTH_TOKEN")) ==>
      r == OutboundAnswer(st, 500, Rejected(NoCredentials), None)
    ensures r.request.Some? <==>
      isJson && Present(to) && Present(from) && LooksE164(to.value, from.value)
      && Sales.IsSet(env, "TWILIO_ACCOUNT_SID") && Sales.IsSet(env, "TWILIO_AUTH_TOKEN")
    ensures r.request.Some? ==>
      var base := if RStripSlash(hostUrl) == "" then Sales.DefaultWebhookBase else RStripSlash(hostUrl);
      r.request.value == Sales.CallRequest(to.value, from.value, base + Sales.OutboundConnectPath, base + Sales.StatusPath)
    ensures r.code == 200 <==> r.request.Some? && placed.Some?
    ensures r.request.Some? && placed.None? ==> r == OutboundAnswer(st, 500, Rejected(CallFailed), r.request)
    ensures r.code != 200 ==> r.server == st
    ensures r.code == 200 ==>
      && r.server.agent == Sales.GetConversation(st.agent, placed.value).agent
      && r.body.Placed? && r.body.callSid == r.server.agent.sessions[placed.value].callSid
      && r.body.to == to.value && r.body.from == from.value
      && r.server.logger == Log.LogCallStart(st.logger, r.body.callSid, to.value, now, saved)
    ensures r.code == 200 && Valid(st) ==> r.body.callSid == placed.value
    ensures r.server.audio == st.audio
    ensures Valid(st) ==> Valid(r.server)
  {
    if !isJson then OutboundAnswer(st, 400, Rejected(NotJson), None)
    else if !Present(to) || !Present(from) then OutboundAnswer(st, 400, Rejected(NumbersRequired), None)
    else if !LooksE164(to.value, from.value) then OutboundAnswer(st, 400, Rejected(NotE164), None)
    else if !(Sales.IsSet(env, "TWILIO_ACCOUNT_SID") && Sales.IsSet(env, "TWILIO_AUTH_TOKEN")) then
      OutboundAnswer(st, 500, Rejected(NoCredentials), None)
    else
      var out := Sales.MakeOutboundCall(st.agent, to.value, from.value, RStripSlash(hostUrl), placed);
      match out.session
      case None => OutboundAnswer(st, 500, Rejected(CallFailed), Some(out.request))
      case Some(session) =>
        var logged := Log.LogCallStart(st.logger, session.callSid, to.value, now, saved);
        OutboundAnswer(Server(out.agent, logged, st.audio), 200, Placed(session.callSid, to.value, from.value), Some(out.request))
  }

  /** `handle_outbound_connect`: gets or creates the call's session and says its opening
      line, then listens for speech; when computing the opening line raises
      (`loopFault`) it only says that connecting had an issue. */
  function HandleOutboundConnect(st: Server, sid: string, loopFault: bool): (r: Answer)
    ensures r.server == st.(agent := Sales.GetConversation(st.agent, sid).agent)
    ensures loopFault ==> r.verbs == [Twiml.Say(ConnectIssue)]
    ensures !loopFault ==>
      r.verbs == [Twiml.Say(Groq.GetInitialMessage(r.server.agent.sessions[sid].agent)), Twiml.SpeechGather]
    ensures Valid(st) ==> Valid(r.server)
  {
    var found := Sales.GetConversation(st.agent, sid);
    var verbs :=
      if loopFault then [Twiml.Say(ConnectIssue)]
      else
        var greeting := Groq.GetInitialMessage(found.session.agent);
        [Twiml.Say(if greeting != "" then greeting else OutboundFallbackGreeting), Twiml.SpeechGather];
    Answer(st.(agent := found.agent), verbs)
  }

  /** The answer to a status callback, and the session it terminated, if any. */
  datatype StatusAnswer = StatusAnswer(server: Server, verbs: seq<Twiml.Verb>, ended: Option<Sales.Session>)

  /** `handle_status_update`: on "completed" or "failed", terminates and removes the
      call's session if there is one and always ends the call's transcript; any other
      status changes nothing. The answer is always an empty document. */
  function HandleStatusUpdate(st: Server, status: string, sid: string, now: Log.Time, saved: bool): (r: StatusAnswer)
    ensures r.verbs == []
    ensures status != CompletedStatus && status != FailedStatus ==> r.server == st && r.ended.None?
    ensures status == CompletedStatus || status == FailedStatus ==>
      && sid !in r.server.agent.sessions
      && r.server.agent.sessions == st.agent.sessions - {sid}
      && r.server.logger == Log.LogCallEnd(st.logger, sid, status, now, saved)
      && (r.ended.Some? <==> sid in st.agent.sessions)
    ensures r.ended.Some? ==>
      && !r.ended.value.isActive && r.ended.value.agent.history == []
      && r.ended.value == Sales.Terminate(st.agent.sessions[sid])
    ensures r.server.audio == st.audio
    ensures Valid(st) ==> Valid(r.server)
  {
    if status == CompletedStatus || status == FailedStatus then
      var ended := if sid in st.agent.sessions then Some(Sales.Terminate(st.agent.sessions[sid])) else None;
      var agent := Sales.SalesAgent(st.agent.sessions - {sid});
      StatusAnswer(Server(agent, Log.LogCallEnd(st.logger, sid, status, now, saved), st.audio), [], ended)
    else
      StatusAnswer(st, [], None)
  }

  // ---------------------------------------------------------------------------------
  // The transcript page: how stored entries are shown.

  datatype Speaker = AgentSpeaker | UserSpeaker

  datatype DisplayItem = DisplayItem(role: Speaker, content: string, timestamp: Log.Time)

  datatype TranscriptView = TranscriptView(sid: string, customerNumber: string, startTime: Log.Time, status: string, items: seq<DisplayItem>)

  const InProgress := "in-progress"

  /** The display of one stored entry, given which of its keys are present: the agent's
      role and text when there is an "agent" key, else the user's role with the user text,
      or "" when that is absent too. */
  function ShowEntry(user: Option<string>, agent: Option<string>, at: Log.Time): (d: DisplayItem)
    ensures d.role == AgentSpeaker <==> agent.Some?
    ensures d.content == (if agent.Some? then agent.value else if user.Some? then user.value else "")
    ensures d.timestamp == at
  {
    DisplayItem(if agent.Some? then AgentSpeaker else UserSpeaker,
                match agent case Some(a) => a case None => (match user case Some(u) => u case None => ""),
                at)
  }

  /** `view_transcript`: reads the stored record (not the memory buffer), 404 when there is
      none; an ended call shows its status, one still running shows "in-progress"; every
      entry becomes one display item. */
  function ViewTranscript(store: map<Log.Sid, Log.Record>, sid: string): (r: Option<TranscriptView>)
    ensures r.None? <==> sid !in store
    ensures r.Some? ==>
      var rec := store[sid];
      && r.value.sid == sid && r.value.startTime == rec.startTime
      && r.value.customerNumber == rec.customerNumber
      && r.value.status == (if rec.ending.Some? then rec.ending.value.status else InProgress)
      && |r.value.items| == |rec.transcript|
      && forall i | 0 <= i < |rec.transcript| ::
           r.value.items[i] == ShowEntry(Some(rec.transcript[i].user), Some(rec.transcript[i].agent), rec.transcript[i].timestamp)
  {
    if sid !in store then None
    else
      var rec := store[sid];
      var t := rec.transcript;
      var status := match rec.ending case Some(e) => e.status case None => InProgress;
      Some(TranscriptView(sid, rec.customerNumber, rec.startTime, status,
        seq(|t|, i requires 0 <= i < |t| => ShowEntry(Some(t[i].user), Some(t[i].agent), t[i].timestamp))))
  }

  /** Every entry the recorder writes has both keys, so the page shows each one as the
      agent speaking the agent text: what the caller said is never displayed. */
  lemma CallerWordsNeverShown(store: map<Log.Sid, Log.Record>, sid: string)
    requires sid in store
    ensures var view := ViewTranscript(store, sid).value;
      forall i | 0 <= i < |view.items| ::
        view.items[i].role == AgentSpeaker && view.items[i].content == store[sid].transcript[i].agent
  {
  }

  // ---------------------------------------------------------------------------------
  // Cross-handler properties.

  /** For a call id without '/', the Play verb of a reply names a file that the audio
      route then serves: the basename in the URL resolves back to the cached file. The
      request's `CallSid` is not validated, so this is a condition on the id, not a fact
      about every request. */
  lemma PlayedAudioIsServed(audio: map<string, string>, sid: string, text: string, md5: string -> Digest, synthesis: Synthesis)
    requires '/' !in sid
    ensures var path := AudioFilename(sid, text, md5);
      var d := DeliverReply(audio, path, text, synthesis);
      var name := AudioName(sid, text, md5);
      d.verbs[|d.verbs| - 2].Play? ==>
        && d.verbs[|d.verbs| - 2] == Twiml.Play(AudioRoute + name)
        && ServeAudio(d.audio, name) == Found(path, d.audio[path])
  {
    var name := AudioName(sid, text, md5);
    AudioNameIsPlain(sid, text, md5);
    assert Basename(name) == name;
  }

  /** Re-delivery of the same reply for the same call never synthesizes again: once a turn
      has written the audio, a later turn with the same reply text plays the cached file
      whatever the synthesizer would do, and the cache is unchanged. */
  lemma RepeatedReplyHitsCache(st: Server, sid: string, speech: string, speech2: string, now: Log.Time, now2: Log.Time,
                               saved: bool, saved2: bool, savedReply: bool, savedReply2: bool, md5: string -> Digest,
                               chunks: seq<Option<string>>, chunks2: seq<Option<string>>, audio: string, synthesis2: Synthesis)
    requires speech != "" && speech2 != "" && audio != ""
    requires Groq.WholeText(chunks2) == Groq.WholeText(chunks)
    ensures var r1 := HandleUserInput(st, sid, speech, now, saved, savedReply, md5, Groq.Delivered(chunks), Returned(Some(audio)));
      var r2 := HandleUserInput(r1.server, sid, speech2, now2, saved2, savedReply2, md5, Groq.Delivered(chunks2), synthesis2);
      var path := AudioFilename(sid, Groq.WholeText(chunks), md5);
      && path in r1.server.audio
      && r2.server.audio == r1.server.audio
      && r2.page == Document([Twiml.Play(AudioRoute + Basename(path)), Twiml.SpeechGather])
  {
  }

  /** The two writes of one utterance fail independently: when the placeholder is saved
      and the reply's write fails, the store keeps a transcript ending in the placeholder
      while the buffer already holds the reply after it. */
  lemma ReplyWriteFailureLeavesPlaceholder(st: Server, sid: string, speech: string, now: Log.Time,
                                           md5: string -> Digest, chunks: seq<Option<string>>, synthesis: Synthesis)
    requires speech != ""
    ensures var r := HandleUserInput(st, sid, speech, now, true, false, md5, Groq.Delivered(chunks), synthesis);
      var before := if sid in st.logger.memory then st.logger.memory[sid].transcript else [];
      && r.server.logger.store[sid].transcript == before + [Log.Entry(now, speech, Placeholder)]
      && r.server.logger.memory[sid].transcript ==
           before + [Log.Entry(now, speech, Placeholder), Log.Entry(now, speech, Groq.WholeText(chunks))]
  {
    var text := Groq.WholeText(chunks);
    var r := HandleUserInput(st, sid, speech, now, true, false, md5, Groq.Delivered(chunks), synthesis);
    var first := Log.LogInteraction(st.logger, sid, speech, Placeholder, now, true);
    var second := Log.LogInteraction(first, sid, speech, text, now, false);
    assert r.server.logger == second;
    var before := if sid in st.logger.memory then st.logger.memory[sid].transcript else [];
    assert first.memory[sid].transcript == before + [Log.Entry(now, speech, Placeholder)];
    assert second.memory[sid].transcript == first.memory[sid].transcript + [Log.Entry(now, speech, text)];
  }
}

=== FILE: transcript_log.dfy ===
/** The transcript recorder (`ConversationLogger`): an in-memory buffer of the records of
    calls in progress, mirrored record by record to a durable store (the `logs/<sid>.json`
    files), which here is a second map. Every mutator writes the whole current record,
    never a delta; ending a call writes the final record and releases the buffer. */
module TranscriptLog {
  import opened Common

  /** A call identifier assigned by the telephony provider. */
  type Sid = string

  /** An abstract clock reading. It stands for the ISO-8601 text `datetime.now()`
      produces, whose lexicographic order is its chronological order. */
  type Time = int

  /** One `{timestamp, user, agent}` transcript entry. */
  datatype Entry = Entry(timestamp: Time, user: string, agent: string)

  /** The `end_time` and `status` that ending a call adds (always together). */
  datatype Ending = Ending(endTime: Time, status: string)

  datatype Record = Record(startTime: Time, customerNumber: string, transcript: seq<Entry>, ending: Option<Ending>)

  datatype Logger = Logger(memory: map<Sid, Record>, store: map<Sid, Record>)

  /** The caller number of a record created because its call-start event was missed. */
  const UnknownNumber := "unknown"

  /** A record as a call start (or a lazy creation) makes it: no entries, not ended. */
  function Started(now: Time, number: string): Record
  {
    Record(now, number, [], None)
  }

  /** A freshly constructed recorder over an existing durable store. */
  function NewLogger(store: map<Sid, Record>): Logger
  {
    Logger(map[], store)
  }

  /** Records still buffered in memory have not been ended: ending a call releases them. */
  ghost predicate Inv(lg: Logger)
  {
    forall sid | sid in lg.memory :: lg.memory[sid].ending.None?
  }

  /** Every buffered record has reached the store unchanged: what holds when no write failed. */
  ghost predicate Mirrored(lg: Logger)
  {
    forall sid | sid in lg.memory :: sid in lg.store && lg.store[sid] == lg.memory[sid]
  }

  /** `_save_to_file`: writes the full buffered record for `sid` to the store when the
      write succeeds (`saved`); a failed write is reported and leaves the store as it was. */
  function Save(lg: Logger, sid: Sid, saved: bool): (r: Logger)
    requires sid in lg.memory
    ensures r.memory == lg.memory
    ensures saved ==> sid in r.store && r.store[sid] == lg.memory[sid]
    ensures r.store - {sid} == lg.store - {sid}
    ensures !saved ==> r.store == lg.store
  {
    if saved then lg.(store := lg.store[sid := lg.memory[sid]]) else lg
  }

  /** `get_transcript`: the buffered record if there is one, else the stored one, else None. */
  function GetTranscript(lg: Logger, sid: Sid): (r: Option<Record>)
    ensures sid in lg.memory ==> r == Some(lg.memory[sid])
    ensures sid !in lg.memory && sid in lg.store ==> r == Some(lg.store[sid])
    ensures r.None? <==> sid !in lg.memory && sid !in lg.store
  {
    if sid in lg.memory then Some(lg.memory[sid])
    else if sid in lg.store then Some(lg.store[sid])
    else None
  }

  /** `log_call_start`: replaces whatever was recorded for `sid` by a fresh record holding
      the caller's number and an empty transcript, and writes it through. */
  function LogCallStart(lg: Logger, sid: Sid, number: string, now: Time, saved: bool): (r: Logger)
    ensures GetTranscript(r, sid) == Some(Record(now, number, [], None))
    ensures r.memory - {sid} == lg.memory - {sid}
    ensures r.store - {sid} == lg.store - {sid}
    ensures saved ==> sid in r.store && sid in r.memory && r.store[sid] == r.memory[sid]
    ensures !saved ==> r.store == lg.store
    ensures Inv(lg) ==> Inv(r)
    ensures Mirrored(lg) && saved ==> Mirrored(r)
  {
    Save(lg.(memory := lg.memory[sid := Started(now, number)]), sid, saved)
  }

  /** The record an interaction or an ending starts from: the buffered one, or a fresh
      record with an unknown number when the call-start event was missed. Note that a
      record already ended (no longer buffered) is NOT reloaded from the store. */
  function Buffered(lg: Logger, sid: Sid, now: Time): Record
  {
    if sid in lg.memory then lg.memory[sid] else Started(now, UnknownNumber)
  }

  /** `log_interaction`: appends exactly one `{timestamp, user, agent}` entry to the end of
      the buffered record (created lazily with number "unknown" when missing) and writes
      the full record through. Earlier entries and other calls are untouched. */
  function LogInteraction(lg: Logger, sid: Sid, user: string, agent: string, now: Time, saved: bool): (r: Logger)
    ensures sid in r.memory
    ensures sid in lg.memory ==>
      r.memory[sid] == lg.memory[sid].(transcript := lg.memory[sid].transcript + [Entry(now, user, agent)])
    ensures sid !in lg.memory ==> r.memory[sid] == Record(now, UnknownNumber, [Entry(now, user, agent)], None)
    ensures r.memory - {sid} == lg.memory - {sid}
    ensures r.store - {sid} == lg.store - {sid}
    ensures saved ==> sid in r.store && r.store[sid] == r.memory[sid]
    ensures !saved ==> r.store == lg.store
    ensures Inv(lg) ==> Inv(r)
    ensures Mirrored(lg) && saved ==> Mirrored(r)
  {
    var rec := Buffered(lg, sid, now);
    var rec' := rec.(transcript := rec.transcript + [Entry(now, user, agent)]);
    Save(lg.(memory := lg.memory[sid := rec']), sid, saved)
  }

  /** `log_call_end`: stamps the buffered record (created lazily when missing) with an end
      time and the final status, writes it through, and evicts it from memory. */
  function LogCallEnd(lg: Logger, sid: Sid, status: string, now: Time, saved: bool): (r: Logger)
    ensures sid !in r.memory
    ensures r.memory == lg.memory - {sid}
    ensures r.store - {sid} == lg.store - {sid}
    ensures saved ==> sid in r.store
    ensures saved && sid in lg.memory ==>
      r.store[sid] == lg.memory[sid].(ending := Some(Ending(now, status)))
    ensures saved && sid !in lg.memory ==>
      r.store[sid] == Record(now, UnknownNumber, [], Some(Ending(now, status)))
    ensures !saved ==> r.store == lg.store
    ensures Inv(lg) ==> Inv(r)
    ensures Mirrored(lg) ==> Mirrored(r)
  {
    var rec := Buffered(lg, sid, now);
    var saved' := Save(lg.(memory := lg.memory[sid := rec.(ending := Some(Ending(now, status)))]), sid, saved);
    saved'.(memory := saved'.memory - {sid})
  }

  /** When no write has failed, the memory buffer is invisible to readers: reading a
      transcript gives exactly what the durable store holds. */
  lemma MirroredReadsStore(lg: Logger, sid: Sid)
    requires Mirrored(lg)
    ensures GetTranscript(lg, sid) == (if sid in lg.store then Some(lg.store[sid]) else None)
  {
  }

  /** A record whose write failed at the end of the call is lost: it is neither buffered
      nor stored afterwards (unless an earlier write had reached the store). */
  lemma FailedEndLosesUnsavedRecord(lg: Logger, sid: Sid, status: string, now: Time)
    requires sid !in lg.store
    ensures GetTranscript(LogCallEnd(lg, sid, status, now, false), sid).None?
  {
  }

  /** A second ending of the same call (a duplicated status callback) does not find the
      record in memory, so it stores a fresh "unknown" record with an empty transcript
      over the one the first ending saved. */
  lemma RepeatedEndResetsStoredRecord(lg: Logger, sid: Sid, s1: string, s2: string, t1: Time, t2: Time)
    ensures var once := LogCallEnd(lg, sid, s1, t1, true);
            var twice := LogCallEnd(once, sid, s2, t2, true);
            twice.store[sid] == Record(t2, UnknownNumber, [], Some(Ending(t2, s2)))
  {
  }

  /** An interaction that arrives after its call ended starts a new "unknown" record with
      that single entry, which replaces the finalised record in the store. */
  lemma LateInteractionResetsStoredRecord(lg: Logger, sid: Sid, status: string, user: string, agent: string, t1: Time, t2: Time)
    ensures var ended := LogCallEnd(lg, sid, status, t1, true);
            var late := LogInteraction(ended, sid, user, agent, t2, true);
            late.store[sid] == Record(t2, UnknownNumber, [Entry(t2, user, agent)], None)
  {
  }

  // ---------------------------------------------------------------------------------
  // get_all_calls: every listed record, tagged with its id, newest first, truncated.

  /** A record returned by `get_all_calls`, tagged with its call id. */
  datatype Call = Call(callSid: Sid, record: Record)

  function StartOf(c: Call): Time
  {
    c.record.startTime
  }

  ghost predicate SortedNewestFirst(s: seq<Call>)
  {
    forall i, j | 0 <= i < j < |s| :: StartOf(s[i]) >= StartOf(s[j])
  }

  /** The calls of `s` that started at `t`, in their order in `s`. Two orderings of the
      same calls that agree on every such list keep equal-time calls in the same order. */
  function StartedAt(s: seq<Call>, t: Time): seq<Call>
  {
    if |s| == 0 then []
    else (if StartOf(s[0]) == t then [s[0]] else []) + StartedAt(s[1..], t)
  }

  /** Places `c` before the first call that is not newer than it. */
  function InsertNewestFirst(c: Call, s: seq<Call>): seq<Call>
  {
    if |s| == 0 then [c]
    else if StartOf(s[0]) <= StartOf(c) then [c] + s
    else [s[0]] + InsertNewestFirst(c, s[1..])
  }

  /** Python's stable `sort(key=start_time, reverse=True)`, as an insertion sort. */
  function SortNewestFirst(s: seq<Call>): seq<Call>
  {
    if |s| == 0 then [] else InsertNewestFirst(s[0], SortNewestFirst(s[1..]))
  }

  lemma {:induction false} InsertKeepsCalls(c: Call, s: seq<Call>)
    ensures multiset(InsertNewestFirst(c, s)) == multiset(s) + multiset{c}
    decreases |s|
  {
    if |s| > 0 && StartOf(c) < StartOf(s[0]) {
      InsertKeepsCalls(c, s[1..]);
      assert s == [s[0]] + s[1..];
    }
  }

  lemma {:induction false} InsertKeepsOrder(c: Call, s: seq<Call>)
    requires SortedNewestFirst(s)
    ensures SortedNewestFirst(InsertNewestFirst(c, s))
    decreases |s|
  {
    if |s| > 0 && StartOf(c) < StartOf(s[0]) {
      var tail := s[1..];
      assert SortedNewestFirst(tail) by {
        forall i, j | 0 <= i < j < |tail| ensures StartOf(tail[i]) >= StartOf(tail[j]) {
          assert tail[i] == s[i + 1] && tail[j] == s[j + 1];
        }
      }
      InsertKeepsOrder(c, tail);
      InsertKeepsCalls(c, tail);
      var rest := InsertNewestFirst(c, tail);
      var r := InsertNewestFirst(c, s);
      assert r == [s[0]] + rest;
      forall k | 0 <= k < |rest| ensures StartOf(s[0]) >= StartOf(rest[k]) {
        var x := rest[k];
        assert x in multiset(rest);
        if x != c {
          assert x in multiset(tail);
          var m :| 0 <= m < |tail| && tail[m] == x;
          assert s[m + 1] == x;
        }
      }
      forall i, j | 0 <= i < j < |r| ensures StartOf(r[i]) >= StartOf(r[j]) {
        assert r[j] == rest[j - 1];
        if i > 0 {
          assert r[i] == rest[i - 1];
        }
      }
    }
  }

  lemma {:induction false} InsertKeepsTies(c: Call, s: seq<Call>, t: Time)
    requires SortedNewestFirst(s)
    ensures StartedAt(InsertNewestFirst(c, s), t) ==
            (if StartOf(c) == t then [c] + StartedAt(s, t) else StartedAt(s, t))
    decreases |s|
  {
    var r := InsertNewestFirst(c, s);
    if |s| == 0 {
      assert r[1..] == [];
    } else if StartOf(s[0]) <= StartOf(c) {
      assert r[1..] == s;
      if StartOf(c) == t {
        assert StartedAt(r, t) == [c] + StartedAt(s, t);
      }
    } else {
      var tail := s[1..];
      assert SortedNewestFirst(tail) by {
        forall i, j | 0 <= i < j < |tail| ensures StartOf(tail[i]) >= StartOf(tail[j]) {
          assert tail[i] == s[i + 1] && tail[j] == s[j + 1];
        }
      }
      InsertKeepsTies(c, tail, t);
      assert r[1..] == InsertNewestFirst(c, tail);
      assert r[0] == s[0];
      if StartOf(c) == t && StartOf(s[0]) == t {
        assert false;
      }
    }
  }

  lemma {:induction false} SortKeepsOrderAndCalls(s: seq<Call>)
    ensures SortedNewestFirst(SortNewestFirst(s))
    ensures multiset(SortNewestFirst(s)) == multiset(s)
  {
    if |s| > 0 {
      var rest := SortNewestFirst(s[1..]);
      SortKeepsOrderAndCalls(s[1..]);
      InsertKeepsOrder(s[0], rest);
      InsertKeepsCalls(s[0], rest);
      assert s == [s[0]] + s[1..];
    }
  }

  lemma {:induction false} SortKeepsTies(s: seq<Call>, t: Time)
    ensures StartedAt(SortNewestFirst(s), t) == StartedAt(s, t)
  {
    if |s| > 0 {
      var rest := SortNewestFirst(s[1..]);
      SortKeepsTies(s[1..], t);
      SortKeepsOrderAndCalls(s[1..]);
      InsertKeepsTies(s[0], rest, t);
    }
  }

  /** The sort orders newest first, keeps exactly the given calls, and is stable: calls
      with equal start times keep their relative order. */
  lemma SortNewestFirstSpec(s: seq<Call>)
    ensures SortedNewestFirst(SortNewestFirst(s))
    ensures multiset(SortNewestFirst(s)) == multiset(s)
    ensures |SortNewestFirst(s)| == |s|
    ensures forall t :: StartedAt(SortNewestFirst(s), t) == StartedAt(s, t)
  {
    SortKeepsOrderAndCalls(s);
    assert |SortNewestFirst(s)| == |multiset(SortNewestFirst(s))|;
    forall t ensures StartedAt(SortNewestFirst(s), t) == StartedAt(s, t) {
      SortKeepsTies(s, t);
    }
  }

  /** `sort(key=start_time, reverse=True)` applied to `s`: a stable newest-first
      arrangement of exactly the calls of `s`. */
  method ArrangeNewestFirst(s: seq<Call>) returns (r: seq<Call>)
    ensures SortedNewestFirst(r)
    ensures multiset(r) == multiset(s)
    ensures forall t :: StartedAt(r, t) == StartedAt(s, t)
  {
    r := SortNewestFirst(s);
    SortNewestFirstSpec(s);
  }

  /** The records `get_all_calls` collects from a directory listing, in listing order:
      each listed id whose transcript can be read, tagged with that id. */
  function Collected(lg: Logger, listing: seq<Sid>): seq<Call>
  {
    if |listing| == 0 then []
    else
      var last := listing[|listing| - 1];
      Collected(lg, listing[..|listing| - 1]) +
        (match GetTranscript(lg, last)
         case Some(rec) => [Call(last, rec)]
         case None => [])
  }

  lemma {:induction false} CollectedFromListing(lg: Logger, listing: seq<Sid>)
    ensures forall c | c in Collected(lg, listing) :: c.callSid in listing && GetTranscript(lg, c.callSid) == Some(c.record)
  {
    if |listing| > 0 {
      CollectedFromListing(lg, listing[..|listing| - 1]);
      forall c | c in Collected(lg, listing) ensures c.callSid in listing && GetTranscript(lg, c.callSid) == Some(c.record) {
        if c in Collected(lg, listing[..|listing| - 1]) {
          assert c.callSid in listing[..|listing| - 1];
        }
      }
    }
  }

  /** Every call of a newest-first order that lies past position `k` is no newer than the
      call at `k`. */
  lemma SuffixNoNewer(s: seq<Call>, k: nat, c: Call)
    requires SortedNewestFirst(s) && k < |s|
    requires c in multiset(s[k + 1..])
    ensures StartOf(c) <= StartOf(s[k])
  {
    var i :| 0 <= i < |s[k + 1..]| && s[k + 1..][i] == c;
    assert s[k + 1 + i] == c;
  }

  /** Cutting a newest-first arrangement `sorted` of `found` after `limit` calls keeps an
      ordered selection of `found` and leaves out nothing newer than the last call kept. */
  lemma SliceOfArrangement(found: seq<Call>, sorted: seq<Call>, limit: int)
    requires SortedNewestFirst(sorted) && multiset(sorted) == multiset(found)
    ensures var calls := SliceTo(sorted, limit);
      && |calls| == (if 0 <= limit then Min(limit, |found|) else Max(0, |found| + limit))
      && SortedNewestFirst(calls)
      && multiset(calls) <= multiset(found)
      && (forall c | c in calls :: c in found)
      && (|calls| > 0 ==> forall c | c in multiset(found) - multiset(calls) ::
            StartOf(c) <= StartOf(calls[|calls| - 1]))
  {
    var calls := SliceTo(sorted, limit);
    assert |sorted| == |found| by {
      assert |sorted| == |multiset(sorted)| && |found| == |multiset(found)|;
    }
    CutNewestFirst(sorted, calls);
    forall c | c in calls ensures c in found {
      assert c in multiset(calls);
    }
  }


  /** A leading part of a newest-first order is itself newest first, and everything cut
      off is no newer than its last call. */
  lemma CutNewestFirst(sorted: seq<Call>, calls: seq<Call>)
    requires SortedNewestFirst(sorted) && calls <= sorted
    ensures SortedNewestFirst(calls)
    ensures multiset(calls) <= multiset(sorted)
    ensures |calls| > 0 ==> forall c | c in multiset(sorted) - multiset(calls) ::
      StartOf(c) <= StartOf(calls[|calls| - 1])
  {
    var rest := sorted[|calls|..];
    assert sorted == calls + rest;
    assert multiset(sorted) == multiset(calls) + multiset(rest);
    assert SortedNewestFirst(calls) by {
      forall i, j | 0 <= i < j < |calls| ensures StartOf(calls[i]) >= StartOf(calls[j]) {
        assert calls[i] == sorted[i] && calls[j] == sorted[j];
      }
    }
    if |calls| > 0 {
      forall c | c in multiset(sorted) - multiset(calls) ensures StartOf(c) <= StartOf(calls[|calls| - 1]) {
        assert c in multiset(rest);
        SuffixNoNewer(sorted, |calls| - 1, c);
      }
    }
  }

  /** The loop of `get_all_calls` over the directory listing: every listed record that can
      be read, tagged with its id, in listing order. */
  method CollectListing(lg: Logger, listing: seq<Sid>) returns (found: seq<Call>)
    ensures found == Collected(lg, listing)
  {
    found := [];
    var i := 0;
    while i < |listing|
      invariant 0 <= i <= |listing|
      invariant found == Collected(lg, listing[..i])
    {
      assert listing[..i + 1][..i] == listing[..i];
      var sid := listing[i];
      var data := GetTranscript(lg, sid);
      if data.Some? {
        found := found + [Call(sid, data.value)];
      }
      i := i + 1;
    }
    assert listing[..|listing|] == listing;
  }

  /** `get_all_calls(limit)`: reads every listed record (the buffered copy when there is
      one), tags it with its id, orders newest first, and keeps the first `limit` (Python
      slicing, so a negative limit drops calls from the end). `listing` is the directory
      listing of the store, in whatever order the platform returns it. */
  method GetAllCalls(lg: Logger, listing: seq<Sid>, limit: int) returns (calls: seq<Call>)
    ensures 0 <= limit ==> |calls| == Min(limit, |Collected(lg, listing)|)
    ensures limit < 0 ==> |calls| == Max(0, |Collected(lg, listing)| + limit)
    ensures SortedNewestFirst(calls)
    ensures forall c | c in calls :: c.callSid in listing && GetTranscript(lg, c.callSid) == Some(c.record)
    ensures multiset(calls) <= multiset(Collected(lg, listing))
    ensures |calls| > 0 ==> forall c | c in multiset(Collected(lg, listing)) - multiset(calls) ::
      StartOf(c) <= StartOf(calls[|calls| - 1])
  {
    var found := CollectListing(lg, listing);
    CollectedFromListing(lg, listing);
    var sorted := ArrangeNewestFirst(found);
    SliceOfArrangement(found, sorted, limit);
    calls := SliceTo(sorted, limit);
  }
}

=== FILE: twiml.dfy ===
/** The telephony markup a webhook answers with, as a list of verbs. Rendering the list
    as XML is not modelled. */
module Twiml {

  datatype Verb =
    | Say(text: string)
    | Play(url: string)
    | Gather(input: string, action: string, timeout: nat, speechTimeout: string)

  /** Where caller speech is posted back to. */
  const UserInputAction := "/twilio/user-input"

  /** The verb every greeting and every reply ends with: listen for speech for up to five
      seconds and post the result back to the user-input webhook. */
  const SpeechGather := Gather("speech", UserInputAction, 5, "auto")
}
